=== FILE: README.md ===
# gohwmon: the derivations of `update`, in Dafny

gohwmon is a terminal hardware monitor. Every tick, `update` in `main.go`
prints the per-core CPU load, the battery cycle count and level, and,
depending on the battery status, either the time until charged, the time
left with the power drawn, "Not Charging", or nothing, for any other
status. It reads the power-supply attributes of `BAT0` from sysfs. The
cycle count is printed as read. Each energy and power attribute is cut by
two characters and parsed with `strconv.Atoi`.

This project models that work as pure functions. The CPU sampler's
percentages and the attribute files are inputs (`Update.RawSample`). One
update is the total function `Update.Update`. It returns the lines printed
(`Update.Line`), the errors logged (`Update.LogEntry`), and whether the
update ran to the end or panicked on a slice of a too-short attribute text
(`Update.Outcome`).

Modules, in the order the update uses them:

- `Decimal`: decimal text of integers, as `fmt.Sprint` and `%d` write them, and the value of a run of digits.
- `StrConv`: `strconv.Atoi` on a 64-bit platform. Its unsigned part, `StrConv.ParseUint`, is written after Go's digit loop and proved equal to an independent reference definition, `StrConv.UintSpec`. Atoi's own contract and `StrConv.AtoiErrorKind` relate Atoi to that definition.
- `GoNum`: the float64 and int32 arithmetic of the estimates.
  - A float64 is an exact real or `NonFinite`, which is what a division by zero gives.
  - `int32(x)` truncates toward zero. It is `ImplDefined` when the value does not fit.
  - Go's `%` keeps the sign of the dividend.
- `Battery`: the cut of an attribute text, the exact status comparison, the level, the two clocks and the minutes field.
- `Cpu`: the per-core label.
- `Update`: the update itself. The reads of the energy attributes are `ReadEnergies`; the status dispatch is `BatteryTail`.

What `update` does with the attribute texts:

- Each energy and power attribute text loses its last two characters before `strconv.Atoi`. A kernel attribute holds the digits and a newline, so the cut drops the newline and the last digit, and the number read is the attribute divided by ten (`Update.SysfsReading`). The power printed is that number over 100000.
- A text shorter than two characters panics on the slice. A text whose cut Atoi rejects is logged, and the update goes on with the value Atoi returned: 0 after a syntax error, the int64 bound after a range error.
- With zero power the estimates convert an infinity or a NaN to `int32`. The model calls that clock `Battery.Unspecified`.
- The level is energy now over the full capacity, times 100, whatever its size: an energy above the capacity gives a level above 100.
- When the energy exceeds the design capacity while charging, the time until charged is zero or negative: hours <= 0 and minutes in (-60, 0] (`Battery.ChargeClockNegative`). Negative minutes print with the padding '0' before the sign, as in "0:0-30" (`Battery.OverchargedClockText`).

## Model

| member | source | states |
|---|---|---|
| Decimal.NatText | main.go:143-145 | the text `fmt.Sprint` writes for a non-negative number is a non-empty run of digits |
| Decimal.IntText | main.go:143-155 | the text of an int starts with '-' exactly when it is negative, and with a digit otherwise |
| Decimal.NatTextValue | main.go:143-145 | the decimal text `fmt.Sprint` writes for a number reads back as that number |
| Decimal.NatTextLeading | main.go:143-145 | the text of a positive number never starts with '0', so a leading '0' is always padding |
| Decimal.NatTextLength | main.go:143-145 | a number below ten has one digit and one in [10, 100) has two, in both directions |
| Decimal.IntTextInjective | main.go:146-156 | two different ints never print the same text |
| StrConv.Atoi | main.go:105-108 | the value is always an int64; there is no error exactly when the text is an optional sign and a non-empty run of digits whose signed value fits int64, and the value is then that number; a syntax error comes with 0 and a text that is not such a run; a range error comes with MinInt64 for a text starting with '-' and MaxInt64 otherwise |
| StrConv.AtoiErrorKind | main.go:105-108 | a text gets a syntax error exactly when the reference definition finds one after the sign, that is, when a character other than a digit comes before the digits overflow |
| StrConv.AtoiTrailingLetter | main.go:105-108 | "12a" is a syntax error read as 0, not 12 |
| StrConv.ScanMeetsSpec | main.go:105 | Go's digit loop, which stops at the first overflow before looking further, agrees with the reference definition from any point of the leading digit run |
| StrConv.ParseUintMeetsSpec | main.go:105 | parsing the unsigned part equals the reference definition on every text |
| StrConv.UintSpecOfDigits | main.go:105 | on a non-empty run of digits the reference definition gives the digits' value, or a range error when that exceeds 2^64 - 1 |
| StrConv.AtoiRoundTrip | main.go:105 | Atoi of the decimal text of any int64 gives back the number and no error |
| StrConv.AtoiNoDigits | main.go:105-108 | text with no digit after the optional sign is a syntax error read as 0 |
| GoNum.QuotientMeaning | main.go:128 | in the model's float64 of exact reals, a quotient of finite operands is finite exactly when the divisor is not zero, and then times the divisor it gives back the dividend |
| GoNum.Trunc | main.go:142 | truncation lies between zero and the value, within one of it, for either sign |
| GoNum.ToInt32 | main.go:142 | `int32(v)` is defined exactly when v is finite and strictly between MinInt32 - 1 and MaxInt32 + 1; it is then the integer next to v toward zero: n <= v < n + 1 with n >= 0 for v >= 0, and n - 1 < v <= n with n <= 0 for v < 0 |
| GoNum.Rem60 | main.go:142 | `a % 60` differs from a by a multiple of 60, lies in [0, 60) for a >= 0 and in (-60, 0] for a < 0 |
| Battery.StripUnit | main.go:103-104 | the cut text is two characters shorter than the input and agrees with it at every position it keeps: it is the input minus exactly its last two characters |
| Battery.StripSysfsNumber | main.go:103-108 | the cut of a kernel-written number reads as the number divided by ten, with no error from ten on, and as a syntax error and 0 below ten |
| Battery.ClassifyKnown | main.go:130-180 | the three status texts compared against, newline included, select their branches, and "Not Charging\n" selects none |
| Battery.ClassifyIsExact | main.go:130-180 | a status selects the "Not charging", "Charging" or "Discharging" branch if and only if it is that exact text with its newline; a status not ending in a newline selects no branch |
| Battery.LevelProperties | main.go:128 | the level (`Battery.Level`) is finite exactly when the full capacity (not the design capacity) is non-zero; it then times the capacity is 100 times the energy; it lies in [0, 100] for an energy between 0 and the capacity, and is 100 when they are equal |
| Battery.ClockOfHoursNonNegative | main.go:142-155 | for y >= 0 hours the clock (`Battery.ClockOfHours`) is defined exactly when the whole minutes fit int32, and its hours are floor(y), its minutes in [0, 60), and hours * 60 + minutes is the whole minutes |
| Battery.DischargeIsClockOfHours | main.go:160-174 | the discharging formula in seconds (`Battery.ClockOfSeconds`) computes the same clock as the charging formula in hours |
| Battery.DischargeClockSound | main.go:160-174 | for E >= 0 and P > 0 the time left (`Battery.DischargeClock`) is defined exactly when floor(60E/P) fits int32, and it is then floor(E/P) hours and minutes in [0, 60) with hours * 60 + minutes = floor(60E/P) |
| Battery.ChargeClockSound | main.go:142-156 | for design >= now and P > 0, with D = design - now, the time until charged (`Battery.ChargeClock`) is defined exactly when floor(60D/P) fits int32, and it is then floor(D/P) hours and minutes in [0, 60) with hours * 60 + minutes = floor(60D/P) |
| Battery.HoursQuotient | main.go:142-174 | the clock of E/P hours, E >= 0 and P > 0, in integer terms: defined iff floor(60E/P) fits int32, and then hours floor(E/P) and the minutes past the hour |
| Battery.ZeroPowerUnspecified | main.go:142-174 | with zero power neither estimate has a defined clock |
| Battery.ChargeClockNegative | main.go:142-156 | charging with more energy than the design capacity gives non-positive hours and minutes in (-60, 0], whose sum in minutes is minus floor(60(now - design)/P) |
| Battery.MinuteField | main.go:143-155 | the field starts with '0' exactly when the minutes are below ten; for minutes in [0, 60) it is exactly two digits that read back as the minutes |
| Battery.ClockTextInjective | main.go:146-156 | two clocks, with hours of either sign and minutes in [0, 60), print the same "hours:minutes" text (`Battery.ClockText`) only if they are equal |
| Battery.OverchargedClockText | main.go:142-150 | design 50, energy 51, power 2 gives the clock (0, -30), printed "0:0-30" |
| Battery.DischargingScenario | main.go:128-175 | energy 5000000 of 10000000 at power 1000000 gives level 50 and time left (5, 0), printed "5:00" |
| Cpu.CpuLabel | main.go:80-86 | the label is 'C' followed by digits that read back as the core index, three characters exactly for the cores below one hundred |
| Cpu.CpuLabelPadding | main.go:81-85 | the first digit is a padding '0' exactly for the cores below ten |
| Cpu.CpuLabelInjective | main.go:80-86 | different cores have different labels |
| Cpu.CpuLabelsDistinct | main.go:80-86 | the labels of the first n cores are pairwise distinct |
| Update.AttrValue | main.go:103-105 | the value carried on with after a cut is always an int64 |
| Update.ParseLog | main.go:105-108 | the update logs nothing, one syntax error or one range error for a parse; after a syntax error the value is 0, after a range error an int64 bound |
| Update.CleanParse | main.go:103-108 | a parse logs nothing exactly when the cut text is an optional sign and a run of digits whose value fits int64, and the value carried on with is then that number |
| Update.CpuLines | main.go:79-86 | one line per core, in order, with the sampler's percentage; each label is 'C' followed by digits that read back as the core index; no two cores share a label; with at most one hundred cores every label has three characters |
| Update.ReadEnergies | main.go:99-126 | the three energy attributes are read exactly when all are long enough to cut; otherwise the panic names the first one, in source order, that is too short |
| Update.Update | main.go:99-182 | an update runs to the end only if every energy attribute could be cut |
| Update.HeadFirst | main.go:79-93 | whatever the battery attributes hold, the CPU header, the per-core lines and the cycle count line are printed before anything else |
| Update.TailEstimates | main.go:130-179 | the status dispatch prints a time estimate or the power exactly when the status is "Charging\n" or "Discharging\n" and power_now can be cut |
| Update.TailLog | main.go:130-140 | the status dispatch logs only about power_now, and logs its read error exactly when the status is not "Not charging\n" and the read failed |
| Update.TailParseLog | main.go:135-140 | the status dispatch logs the parse error e of power_now exactly when the status is not "Not charging\n", the text can be cut and Atoi fails on the cut with e |
| Update.NotChargingDispatch | main.go:130-182 | "Not charging\n" prints "Not Charging" after the level and completes, and the contents of power_now make no difference to the update |
| Update.ChargingDispatch | main.go:141-158 | "Charging\n" prints after the level only the time until charged, from the design capacity, the energy and the power |
| Update.DischargingDispatch | main.go:159-179 | "Discharging\n" prints after the level the time left and the power over 100000 (`Update.Watts`) |
| Update.OtherStatusDispatch | main.go:130-140 | any other status prints nothing after the level but still cuts power_now, so a too-short power text panics |
| Update.EstimatesOnlyWhenCharging | main.go:130-182 | under "Not charging\n" or an unrecognised status, no line of the update is a time estimate or a power line |
| Update.CutFailurePanics | main.go:99-126 | an energy attribute too short to cut panics before the level line, naming the first such attribute in source order |
| Update.ParseFailureCarriesOn | main.go:103-128 | an energy_now text whose cut Atoi rejects with a syntax error is logged, read as 0, and the update still prints the level of 0 and reaches the dispatch |
| Update.SysfsReading | main.go:103-108 | a kernel-written number of at least two digits is read without a log entry, as the number divided by ten |
| Update.WellFormedSample | main.go:88-140 | attribute files with numbers of at least two digits and no read errors give an update that logs nothing, completes, and prints the level of the numbers divided by ten |
| Update.ReadingsKept | main.go:88-126 | every entry logged while reading the energy attributes stays in the update's log |
| Update.TailKept | main.go:130-140 | every entry the status dispatch logs stays in the update's log |
| Update.EnergyReadErrorsLogged | main.go:88-126 | reading the energy attributes logs the read errors of cycle_count, status and energy_now, and that of energy_full_design once it gets that far |
| Update.EnergyLogOmitsFullRead | main.go:110-116 | reading the energy attributes never logs the read error of energy_full, whose error value the parse overwrites |
| Update.EnergyLogOmitsPower | main.go:88-126 | reading the energy attributes logs nothing about power_now |
| Update.EnergyParseErrorsLogged | main.go:103-126 | reading the energy attributes logs the Atoi error of each energy attribute it cuts |
| Update.EnergyFullReadErrorNotLogged | main.go:110-116 | no update ever logs the read error of energy_full |
| Update.ParseErrorsLogged | main.go:103-140 | the Atoi error of every attribute the update cuts is in its log: energy_now once it is cut, energy_full once both are cut, energy_full_design when all three are; power_now's error e is in the log exactly when the dispatch cuts power_now and Atoi fails on it with e |
| Update.ReadErrorsLogged | main.go:88-134 | the read errors of cycle_count, status, energy_now and, once reached, energy_full_design are in the update's log; power_now's is in it exactly when the energy attributes can be cut, the status is not "Not charging\n" and the read failed |

## Left out

- The event loop of `main` (main.go:37-58) is left out. It covers the ticker, the signal channel, UI event polling and a goroutine per tick. It is concurrency with no derivation in it.
- The log-file setup (main.go:25-35) is left out, as is the terminal UI initialisation.
- The reads of `/sys/class/power_supply/BAT0/*` are inputs, not modelled. Each read is a text and a failure flag.
- The percentages of `psCpu.Percent` (main.go:66-69) are an input. When it fails, its error is only logged and the update goes on with the list it returned, which is then empty.
- `mem.VirtualMemory` (main.go:62-65) is left out with the memory block. On failure it returns a nil result along with the error, so main.go:74 panics on a nil pointer before "CPU:" is printed. `Update.Update` starts after that point and does not show this panic.
- The memory block (main.go:70-78) is left out. It is float64 scaling by 2^30 plus fmt float verbs, with nothing to state beyond the formula.
- `SetupGrid` (main.go:185-204) and view.go are termui layout and rendering, and are left out.
- The float verbs `%.2f`, `%3.0f` and `%3.2f` are not modelled. The level, the CPU percentages and the watts are kept as values, not as text.
- The time lines are kept as a clock. `Battery.ClockText` gives the text of the `%d:%s` and `%d:%d` forms.
- GoNum.Quot: a division by an infinity or a NaN is non-finite in the model, where IEEE 754 gives x/inf = 0. Every division in `update` is by a converted integer or by 60, so none is by a non-finite value.
- float64 rounding is not modelled: quotients and products are exact reals, and they never overflow to an infinity. A result that rounding would push over an integer boundary can differ from the model.
- An `int32` conversion of an infinity, a NaN or an out-of-range value is `ImplDefined`. The clock is then `Unspecified` rather than the platform's value.
- `strconv.Atoi` is part of Go's standard library, not of this repository. It is modelled after `ParseInt(s, 10, 64)` on a 64-bit platform.
- Go strings are bytes and are modelled as `string`, one character per byte, with no encoding.
- The `else if string(charging) == "Not charging\n"` test (main.go:180) always holds where it is reached, so the model has no separate case for its failure.
- A read error and a panic are modelled, but not the contents `os.ReadFile` returns alongside an error. Those contents are an input.
- The cycle count line prints the file contents as read (main.go:93), so the model keeps them as text.

=== FILE: battery.dfy ===
/** The battery quantities `update` derives from the power-supply attributes:
    the attribute text with its two trailing characters cut off, the level in
    percent, the time until charged or left as hours and minutes, and the
    minutes field written with a leading zero below ten. */
module Battery {
  import opened Decimal
  import opened StrConv
  import opened GoNum

  /** The attribute text without its last two characters (`s[:len(s)-2]`). */
  function StripUnit(s: string): (r: string)
    requires |s| >= 2
    ensures |r| == |s| - 2
    ensures forall i :: 0 <= i < |r| ==> r[i] == s[i]
  {
    s[..|s| - 2]
  }

  /** An attribute file as the kernel writes it holds the number's digits and
      a newline; cutting two characters drops the newline and the last digit,
      so the number read is the attribute divided by ten, and a one-digit
      attribute reads as a syntax error and 0. */
  lemma StripSysfsNumber(n: nat)
    requires n / 10 <= MaxInt64
    ensures |NatText(n) + "\n"| >= 2
    ensures Atoi(StripUnit(NatText(n) + "\n")).value == n / 10
    ensures Atoi(StripUnit(NatText(n) + "\n")).err == (if n >= 10 then None else Some(ErrSyntax))
  {
    StripNewline(NatText(n));
    if n >= 10 {
      NatTextDropLast(n);
      AtoiRoundTrip(n / 10);
    } else {
      AtoiNoDigits([]);
    }
  }

  lemma StripNewline(t: string)
    requires |t| >= 1
    ensures StripUnit(t + "\n") == t[..|t| - 1]
  {
  }

  /** The charging states the status attribute is compared against. */
  datatype ChargeState = NotCharging | Charging | Discharging | OtherState

  /** Exact comparison with the status text, trailing newline included. */
  function Classify(status: string): ChargeState {
    if status == "Not charging\n" then NotCharging
    else if status == "Charging\n" then Charging
    else if status == "Discharging\n" then Discharging
    else OtherState
  }

  /** The three recognised status texts; the text printed for one of them,
      "Not Charging", is not itself recognised. */
  lemma ClassifyKnown()
    ensures Classify("Not charging\n") == NotCharging
    ensures Classify("Charging\n") == Charging
    ensures Classify("Discharging\n") == Discharging
    ensures Classify("Not Charging\n") == OtherState
  {
  }

  /** Matching is exact: each state is selected by its one text and no
      other, so a status without the trailing newline, or differing in case
      or spacing, is never recognised. */
  lemma ClassifyIsExact(status: string)
    ensures Classify(status) == NotCharging <==> status == "Not charging\n"
    ensures Classify(status) == Charging <==> status == "Charging\n"
    ensures Classify(status) == Discharging <==> status == "Discharging\n"
    ensures status == [] || status[|status| - 1] != '\n' ==> Classify(status) == OtherState
  {
    ClassifyKnown();
  }

  /** Battery level in percent: energy now over the full capacity (not the
      design capacity), times one hundred. */
  function Level(energyNow: int, energyFull: int): F64 {
    Times(Quot(FromInt(energyNow), FromInt(energyFull)), 100.0)
  }

  /** The level is finite exactly when the full capacity is not zero; it is
      then the percentage of the full capacity the energy now makes up, lies
      in [0, 100] for an energy between zero and the capacity, and is 100
      when the two are equal. */
  lemma LevelProperties(energyNow: int, energyFull: int)
    ensures var l := Level(energyNow, energyFull);
            && (energyFull == 0 <==> l.NonFinite?)
            && (l.Finite? ==> l.x * (energyFull as real) == 100.0 * (energyNow as real))
            && (0 <= energyNow <= energyFull && energyFull > 0 ==> l.Finite? && 0.0 <= l.x <= 100.0)
            && (energyNow == energyFull != 0 ==> l == Finite(100.0))
  {
    QuotientOfSelf(energyFull as real);
    if energyFull != 0 {
      QuotientMeaning(FromInt(energyNow), FromInt(energyFull));
    }
  }

  /** Hours and minutes, or unspecified when an `int32` conversion has no
      defined result (a non-finite quotient, or one beyond int32). */
  datatype Clock = Clock(hours: int, minutes: int) | Unspecified

  /** The charging form, from a quotient in hours `q`: hours `int32(q)`,
      minutes `int32(q*60) % 60`. */
  function ClockOfHours(q: F64): Clock {
    match (ToInt32(q), ToInt32(Times(q, 60.0)))
    case (Exact(h), Exact(w)) => Clock(h, Rem60(w))
    case _ => Unspecified
  }

  /** The discharging form, from a time in seconds `t`: hours
      `int32(t/60/60)`, minutes `int32(t/60) % 60`. */
  function ClockOfSeconds(t: F64): Clock {
    var sixty := Finite(60.0);
    match (ToInt32(Quot(Quot(t, sixty), sixty)), ToInt32(Quot(t, sixty)))
    case (Exact(h), Exact(w)) => Clock(h, Rem60(w))
    case _ => Unspecified
  }

  /** Time until charged: (design capacity - energy now) / power, in hours. */
  function ChargeClock(energyFullDesign: int, energyNow: int, power: int): Clock {
    ClockOfHours(Quot(Minus(FromInt(energyFullDesign), FromInt(energyNow)), FromInt(power)))
  }

  /** Time left: energy now / power * 3600 seconds. */
  function DischargeClock(energyNow: int, power: int): Clock {
    ClockOfSeconds(Times(Quot(FromInt(energyNow), FromInt(power)), 3600.0))
  }

  /** For a non-negative number of hours, the clock is defined exactly when
      the whole minutes fit an int32, and then it is the whole hours and the
      minutes past the hour. */
  lemma ClockOfHoursNonNegative(y: real)
    requires y >= 0.0
    ensures ClockOfHours(Finite(y)).Clock? <==> (y * 60.0).Floor <= MaxInt32
    ensures ClockOfHours(Finite(y)).Clock? ==>
              && ClockOfHours(Finite(y)).hours == y.Floor
              && 0 <= ClockOfHours(Finite(y)).minutes < 60
              && ClockOfHours(Finite(y)).hours * 60 + ClockOfHours(Finite(y)).minutes == (y * 60.0).Floor
  {
    FloorHoursFromMinutes(y);
  }

  /** The discharging form computes the same clock as the charging form
      applied to the quotient in hours. */
  lemma DischargeIsClockOfHours(energyNow: int, power: int)
    ensures DischargeClock(energyNow, power) == ClockOfHours(Quot(FromInt(energyNow), FromInt(power)))
  {
  }

  /** Discharging: with a non-negative energy and a positive power, the time
      left is defined exactly when its whole minutes fit an int32, and it is
      then `energy / power` hours and `60 * energy / power` mod 60 minutes. */
  lemma DischargeClockSound(energyNow: int, power: int)
    requires energyNow >= 0 && power > 0
    ensures var c := DischargeClock(energyNow, power);
            && (c.Clock? <==> (60 * energyNow) / power <= MaxInt32)
            && (c.Clock? ==> c.hours == energyNow / power && 0 <= c.minutes < 60
                             && c.hours * 60 + c.minutes == (60 * energyNow) / power)
  {
    DischargeIsClockOfHours(energyNow, power);
    HoursQuotient(energyNow, power);
  }

  /** Charging: with the design capacity at least the energy now and a
      positive power, the time until charged is defined exactly when its
      whole minutes fit an int32, and it is then `deficit / power` hours and
      `60 * deficit / power` mod 60 minutes. */
  lemma ChargeClockSound(energyFullDesign: int, energyNow: int, power: int)
    requires energyFullDesign >= energyNow && power > 0
    ensures var d, c := energyFullDesign - energyNow, ChargeClock(energyFullDesign, energyNow, power);
            && (c.Clock? <==> (60 * d) / power <= MaxInt32)
            && (c.Clock? ==> c.hours == d / power && 0 <= c.minutes < 60 && c.hours * 60 + c.minutes == (60 * d) / power)
  {
    var d := energyFullDesign - energyNow;
    assert Minus(FromInt(energyFullDesign), FromInt(energyNow)) == FromInt(d);
    HoursQuotient(d, power);
  }

  /** Shared step: the clock of `e / p` hours, for e >= 0 and p > 0, in
      integer terms. */
  lemma HoursQuotient(e: int, p: int)
    requires e >= 0 && p > 0
    ensures var c := ClockOfHours(Quot(FromInt(e), FromInt(p)));
            && (c.Clock? <==> (60 * e) / p <= MaxInt32)
            && (c.Clock? ==> c.hours == e / p && 0 <= c.minutes < 60 && c.hours * 60 + c.minutes == (60 * e) / p)
  {
    var y := e as real / p as real;
    assert Quot(FromInt(e), FromInt(p)) == Finite(y);
    ProductAbove(y, p as real);
    ClockOfHoursNonNegative(y);
    FloorOfQuotient(e, p);
    SixtyTimesQuotient(e, p);
    FloorOfQuotient(60 * e, p);
  }

  lemma SixtyTimesQuotient(e: int, p: int)
    requires p > 0
    ensures (e as real / p as real) * 60.0 == (60 * e) as real / p as real
  {
  }

  /** Without power drawn (or with a parse failure that left it 0), the
      quotient is not finite and neither estimate is defined. */
  lemma ZeroPowerUnspecified(energyFullDesign: int, energyNow: int)
    ensures ChargeClock(energyFullDesign, energyNow, 0) == Unspecified
    ensures DischargeClock(energyNow, 0) == Unspecified
  {
  }

  /** Charging with more energy than the design capacity gives a negative
      deficit; truncation and Go's `%` then give non-positive hours and
      minutes between -59 and 0. */
  lemma ChargeClockNegative(energyFullDesign: int, energyNow: int, power: int)
    requires energyFullDesign < energyNow && power > 0
    requires (60 * (energyNow - energyFullDesign)) / power <= MaxInt32
    ensures ChargeClock(energyFullDesign, energyNow, power).Clock?
    ensures var c := ChargeClock(energyFullDesign, energyNow, power);
            && c.hours <= 0 && -60 < c.minutes <= 0
            && c.hours * 60 + c.minutes == -((60 * (energyNow - energyFullDesign)) / power)
  {
    var e := energyNow - energyFullDesign;
    var y := e as real / power as real;
    assert Minus(FromInt(energyFullDesign), FromInt(energyNow)) == Finite(-(e as real));
    assert Quot(Finite(-(e as real)), FromInt(power)) == Finite(-y);
    ProductAbove(y, power as real);
    FloorHoursFromMinutes(y);
    FloorOfQuotient(60 * e, power);
    SixtyTimesQuotient(e, power);
    var k := (y * 60.0).Floor;
    assert Trunc(-y * 60.0) == -k;
    assert Trunc(-y) == -(k / 60);
    assert Rem60(-k) == -(k % 60);
  }

  /** The minutes field: a leading "0" below ten, the plain number otherwise. */
  function MinuteField(m: int): (r: string)
    ensures |r| >= 1
    ensures m < 10 <==> r[0] == '0'
    ensures 0 <= m < 60 ==> |r| == 2 && AllDigits(r) && DigitsValue(r) == m
  {
    if m < 10 then
      var r := "0" + IntText(m);
      if 0 <= m then NatTextLength(m); TwoDigitsValue(r); r else r
    else
      var r := IntText(m);
      NatTextLeading(m);
      if m < 60 then NatTextLength(m); TwoDigitsValue(r); r else r
  }

  /** The "hours:minutes" text of a clock. */
  function ClockText(hours: int, minutes: int): string {
    IntText(hours) + ":" + MinuteField(minutes)
  }

  /** Hours, of either sign, and in-range minutes can be read back from the
      text: different clocks have different texts. */
  lemma ClockTextInjective(h1: int, m1: int, h2: int, m2: int)
    requires 0 <= m1 < 60 && 0 <= m2 < 60
    requires ClockText(h1, m1) == ClockText(h2, m2)
    ensures h1 == h2 && m1 == m2
  {
    var t1, t2 := ClockText(h1, m1), ClockText(h2, m2);
    assert IntText(h1) == t1[..|t1| - 3];
    assert IntText(h2) == t2[..|t2| - 3];
    IntTextInjective(h1, h2);
    assert MinuteField(m1) == t1[|t1| - 2..];
    assert MinuteField(m2) == t2[|t2| - 2..];
  }

  /** A battery charged past its design capacity: deficit -1, power 2, so
      -0.5 hours; the minutes are -30 and the clock reads "0:0-30". */
  lemma OverchargedClockText()
    ensures ChargeClock(50, 51, 2) == Clock(0, -30)
    ensures ClockText(0, -30) == "0:0-30"
  {
    assert Minus(FromInt(50), FromInt(51)) == Finite(-1.0);
    assert Quot(Finite(-1.0), FromInt(2)) == Finite(-0.5);
    assert Trunc(-0.5) == 0;
    assert Trunc(-30.0) == -30;
    assert NatText(30) == NatText(3) + [DigitChar(0)];
  }

  /** 50 Wh left of 100 Wh, discharging at 10 W, as read from the kernel's
      microwatt-hour and microwatt attributes with their last digit cut
      (5000000 of 10000000 at 1000000): level 50 %, time left "5:00". */
  lemma DischargingScenario()
    ensures Level(5_000_000, 10_000_000) == Finite(50.0)
    ensures DischargeClock(5_000_000, 1_000_000) == Clock(5, 0)
    ensures ClockText(5, 0) == "5:00"
  {
    LevelProperties(5_000_000, 10_000_000);
    DischargeClockSound(5_000_000, 1_000_000);
  }
}

=== FILE: cpu.dfy ===
/** The per-core label of the CPU listing: "C0" and the index for the first
    ten cores, "C" and the index beyond. */
module Cpu {
  import opened Decimal

  /** Label of core `core`: a 'C' followed by digits that read back as the
      index, two of them for every core below one hundred. */
  function CpuLabel(core: nat): (r: string)
    ensures |r| >= 2 && r[0] == 'C'
    ensures AllDigits(r[1..]) && DigitsValue(r[1..]) == core
    ensures core < 100 <==> |r| == 3
  {
    NatTextLength(core);
    NatTextValue(core);
    if core < 10 then
      var r := "C0" + IntText(core);
      assert r[1..] == "0" + NatText(core);
      TwoDigitsValue(r[1..]);
      r
    else
      var r := "C" + IntText(core);
      assert r[1..] == NatText(core);
      r
  }

  /** Below ten the index is padded with a zero; from ten on it is not. */
  lemma CpuLabelPadding(core: nat)
    ensures core < 10 <==> CpuLabel(core)[1] == '0'
  {
    if core >= 10 {
      NatTextLeading(core);
      assert CpuLabel(core)[1..] == NatText(core);
    }
  }

  /** The first `n` cores all get different labels. */
  lemma CpuLabelsDistinct(n: nat)
    ensures forall a, b :: 0 <= a < b < n ==> CpuLabel(a) != CpuLabel(b)
  {
    forall a, b | 0 <= a < b < n
      ensures CpuLabel(a) != CpuLabel(b)
    {
      if CpuLabel(a) == CpuLabel(b) {
        CpuLabelInjective(a, b);
      }
    }
  }

  /** Different cores get different labels. */
  lemma CpuLabelInjective(i: nat, j: nat)
    requires CpuLabel(i) == CpuLabel(j)
    ensures i == j
  {
    assert CpuLabel(i)[1..] == CpuLabel(j)[1..];
  }
}

=== FILE: decimal.dfy ===
/** Decimal text of integers, as Go's `fmt.Sprint` and the `%d`/`%v` verbs
    write them, and the value of a run of decimal digits. Text is a sequence
    of characters, each standing for one byte of the Go string. */
module Decimal {

  predicate IsDigit(c: char) {
    '0' <= c <= '9'
  }

  predicate AllDigits(s: string) {
    forall i :: 0 <= i < |s| ==> IsDigit(s[i])
  }

  function DigitValue(c: char): (d: nat)
    requires IsDigit(c)
    ensures d < 10
  {
    (c as int - '0' as int) as nat
  }

  function DigitChar(d: nat): (c: char)
    requires d < 10
    ensures IsDigit(c) && DigitValue(c) == d
  {
    ('0' as int + d) as char
  }

  /** The number a run of digits denotes, read most significant digit first. */
  function DigitsValue(s: string): nat
    requires AllDigits(s)
  {
    if s == [] then 0 else DigitsValue(s[..|s| - 1]) * 10 + DigitValue(s[|s| - 1])
  }

  /** Shortest decimal text of a natural number, no sign and no leading zero. */
  function NatText(n: nat): (s: string)
    ensures |s| >= 1 && AllDigits(s)
  {
    if n < 10 then [DigitChar(n)] else NatText(n / 10) + [DigitChar(n % 10)]
  }

  /** Decimal text of a signed integer, with a leading '-' when negative. */
  function IntText(i: int): (s: string)
    ensures |s| >= 1
    ensures i >= 0 <==> IsDigit(s[0])
    ensures i < 0 <==> s[0] == '-'
  {
    if i < 0 then "-" + NatText(-i) else NatText(i)
  }

  /** Reading back the text of a number gives the number. */
  lemma {:induction false} NatTextValue(n: nat)
    ensures DigitsValue(NatText(n)) == n
  {
    if n >= 10 {
      var s := NatText(n);
      assert s[..|s| - 1] == NatText(n / 10);
      NatTextValue(n / 10);
    }
  }

  /** Different numbers have different texts. */
  lemma NatTextInjective(m: nat, n: nat)
    ensures NatText(m) == NatText(n) ==> m == n
  {
    NatTextValue(m);
    NatTextValue(n);
  }

  /** Different integers have different texts: the sign and the digits
      read back. */
  lemma IntTextInjective(i: int, j: int)
    ensures IntText(i) == IntText(j) ==> i == j
  {
    if IntText(i) == IntText(j) {
      if i < 0 {
        assert NatText(-i) == IntText(i)[1..] == IntText(j)[1..] == NatText(-j);
      }
      NatTextInjective(if i < 0 then -i else i, if j < 0 then -j else j);
    }
  }

  /** The text of a positive number never starts with '0'. */
  lemma {:induction false} NatTextLeading(n: nat)
    requires n >= 1
    ensures NatText(n)[0] != '0'
  {
    if n >= 10 {
      NatTextLeading(n / 10);
    }
  }

  /** The text has exactly as many digits as the magnitude of the number needs. */
  lemma NatTextLength(n: nat)
    ensures n < 10 <==> |NatText(n)| == 1
    ensures 10 <= n < 100 <==> |NatText(n)| == 2
  {
    if n >= 10 {
      assert NatText(n) == NatText(n / 10) + [DigitChar(n % 10)];
      if n >= 100 {
        assert n / 10 >= 10;
        NatTextLength(n / 10);
      }
    }
  }

  /** Dropping the last digit of a number's text gives the text of the number
      divided by ten. */
  lemma NatTextDropLast(n: nat)
    requires n >= 10
    ensures NatText(n)[..|NatText(n)| - 1] == NatText(n / 10)
  {
  }

  /** The value of two digits. */
  lemma TwoDigitsValue(s: string)
    requires |s| == 2 && AllDigits(s)
    ensures DigitsValue(s) == DigitValue(s[0]) * 10 + DigitValue(s[1])
  {
    assert s[..1][..0] == [];
    assert DigitsValue(s[..1]) == DigitValue(s[0]);
    assert s[..|s| - 1] == s[..1];
  }

  /** A prefix of a digit run never denotes more than the whole run. */
  lemma {:induction false} DigitsValuePrefix(s: string, k: nat)
    requires AllDigits(s) && k <= |s|
    ensures AllDigits(s[..k])
    ensures DigitsValue(s[..k]) <= DigitsValue(s)
    decreases |s| - k
  {
    if k < |s| {
      var t := s[..|s| - 1];
      assert t[..k] == s[..k];
      DigitsValuePrefix(t, k);
      assert DigitsValue(s) == DigitsValue(t) * 10 + DigitValue(s[|s| - 1]);
    } else {
      assert s[..k] == s;
    }
  }
}

=== FILE: gonum.dfy ===
/** The float64 and int32 arithmetic the battery estimates go through.
    A float64 is an exact real, or a non-finite value (an infinity or NaN,
    which is what a division by zero yields); rounding is not modelled.
    `int32(x)` truncates toward zero and has an implementation-dependent
    result when the value does not fit; `%` on integers keeps the sign of
    the dividend. */
module GoNum {

  const MaxInt32: int := 0x7FFF_FFFF
  const MinInt32: int := -0x8000_0000

  datatype F64 = Finite(x: real) | NonFinite

  /** Result of a conversion to int32. */
  datatype Conv = Exact(n: int) | ImplDefined

  function FromInt(n: int): F64 {
    Finite(n as real)
  }

  function Minus(a: F64, b: F64): F64 {
    if a.Finite? && b.Finite? then Finite(a.x - b.x) else NonFinite
  }

  function Times(a: F64, c: real): F64 {
    if a.Finite? then Finite(a.x * c) else NonFinite
  }

  /** Division. For finite operands any division by zero (x/0 is an
      infinity, 0/0 is NaN) is non-finite; an infinity or NaN divided by a
      finite number stays non-finite. The model also makes a division by a
      non-finite value non-finite, where IEEE 754 gives x/inf = 0; `update`
      never divides by one. */
  function Quot(a: F64, b: F64): (r: F64)
    ensures r.Finite? <==> a.Finite? && b.Finite? && b.x != 0.0
  {
    if a.Finite? && b.Finite? && b.x != 0.0 then Finite(a.x / b.x) else NonFinite
  }

  /** In the model's float64 of exact reals, a quotient of finite operands
      is finite exactly when the divisor is not zero, and then times the
      divisor it gives back the dividend. (An IEEE 754 quotient can also
      overflow to an infinity; no division `update` makes comes near.) */
  lemma QuotientMeaning(a: F64, b: F64)
    ensures Quot(a, b).Finite? <==> a.Finite? && b.Finite? && b.x != 0.0
    ensures Quot(a, b).Finite? ==> Quot(a, b).x * b.x == a.x
  {
  }

  /** Truncation toward zero: the integer between 0 and x nearest to x. */
  function Trunc(x: real): (t: int)
    ensures x >= 0.0 ==> 0 <= t && t as real <= x < t as real + 1.0
    ensures x < 0.0 ==> t <= 0 && t as real - 1.0 < x <= t as real
  {
    if x >= 0.0 then x.Floor else -((-x).Floor)
  }

  /** Go's `int32(v)` for a float64 v. */
  function ToInt32(v: F64): (c: Conv)
    ensures c.Exact? <==> v.Finite? && MinInt32 as real - 1.0 < v.x < MaxInt32 as real + 1.0
    ensures c.Exact? && v.x >= 0.0 ==> 0 <= c.n && c.n as real <= v.x < c.n as real + 1.0
    ensures c.Exact? && v.x < 0.0 ==> c.n <= 0 && c.n as real - 1.0 < v.x <= c.n as real
  {
    if v.Finite? && MinInt32 <= Trunc(v.x) <= MaxInt32 then Exact(Trunc(v.x)) else ImplDefined
  }

  /** Go's `a % 60`: the remainder of truncated division by sixty. */
  function Rem60(a: int): (r: int)
    ensures (a - r) % 60 == 0
    ensures a >= 0 ==> 0 <= r < 60
    ensures a < 0 ==> -60 < r <= 0
  {
    if a >= 0 then a % 60 else -((-a) % 60)
  }

  /** The floor of an exact quotient of integers is their integer quotient. */
  lemma FloorOfQuotient(a: int, b: int)
    requires b > 0
    ensures (a as real / b as real).Floor == a / b
  {
    var q, r, m := a / b, a % b, (a / b) * b;
    EuclideanDivision(a, b);
    ExactQuotient(a, b);
    IntProductAsReal(q, b);
    QuotientBetween(a as real / b as real, q as real, b as real, m as real, r as real);
    FloorBetween(a as real / b as real, q);
  }

  lemma EuclideanDivision(a: int, b: int)
    requires b > 0
    ensures a == (a / b) * b + a % b && 0 <= a % b < b
  {
  }

  lemma ExactQuotient(a: int, b: int)
    requires b > 0
    ensures (a as real / b as real) * (b as real) == a as real
  {
  }

  lemma IntProductAsReal(q: int, b: int)
    ensures (q * b) as real == (q as real) * (b as real)
  {
  }

  lemma QuotientBetween(y: real, q: real, b: real, m: real, r: real)
    requires b > 0.0 && 0.0 <= r < b
    requires y * b == m + r && q * b == m
    ensures q <= y < q + 1.0
  {
    var z := y - q;
    assert z * b == r;
    ProductBelow(z, b);
    ProductAbove(z, b);
  }

  lemma QuotientOfSelf(a: real)
    ensures a != 0.0 ==> a / a == 1.0
  {
  }

  lemma ProductBelow(z: real, b: real)
    requires b > 0.0 && z * b < b
    ensures z < 1.0
  {
  }

  lemma ProductAbove(z: real, b: real)
    requires b > 0.0 && z * b >= 0.0
    ensures z >= 0.0
  {
  }

  lemma FloorBetween(y: real, q: int)
    requires q as real <= y < q as real + 1.0
    ensures y.Floor == q
  {
  }

  /** Whole hours of a non-negative quantity of hours are the whole minutes
      divided by sixty. */
  lemma FloorHoursFromMinutes(y: real)
    requires y >= 0.0
    ensures y.Floor == (y * 60.0).Floor / 60
  {
    var k := (y * 60.0).Floor;
    var h := k / 60;
    assert h * 60 <= k < h * 60 + 60;
    assert (h as real) * 60.0 <= y * 60.0 < (h as real + 1.0) * 60.0;
  }
}

=== FILE: strconv.dfy ===
/** Go's `strconv.Atoi` on a 64-bit platform, which is `ParseInt(s, 10, 64)`:
    an optional '+' or '-', then decimal digits. It returns the pair
    (value, error) the source inspects: a syntax error comes with the value 0,
    an out-of-range number with the int64 bound of its sign. */
module StrConv {
  import opened Decimal

  const MaxUint64: int := 0xFFFF_FFFF_FFFF_FFFF
  const MaxInt64: int := 0x7FFF_FFFF_FFFF_FFFF
  const MinInt64: int := -0x8000_0000_0000_0000

  datatype NumError = ErrSyntax | ErrRange

  datatype Option<T> = None | Some(value: T)

  /** What `ParseUint(s, 10, 64)` returns. */
  datatype UintResult = UintOk(n: nat) | UintSyntax | UintRange

  /** What `Atoi` returns: the value and the error, if any. */
  datatype AtoiResult = AtoiResult(value: int, err: Option<NumError>)

  /** Go's digit loop, from index `i` with `n` accumulated so far. A non-digit
      stops it with a syntax error; an accumulation beyond 2^64-1 stops it
      with a range error, before the rest of the text is looked at. */
  function Scan(s: string, i: nat, n: nat): UintResult
    requires i <= |s|
    decreases |s| - i
  {
    if i == |s| then UintOk(n)
    else if !IsDigit(s[i]) then UintSyntax
    else if n * 10 + DigitValue(s[i]) > MaxUint64 then UintRange
    else Scan(s, i + 1, n * 10 + DigitValue(s[i]))
  }

  function ParseUint(s: string): UintResult {
    if s == [] then UintSyntax else Scan(s, 0, 0)
  }

  /** Length of the run of digits at the front of `s`. */
  function LeadingDigits(s: string): (k: nat)
    ensures k <= |s| && AllDigits(s[..k])
    ensures k < |s| ==> !IsDigit(s[k])
  {
    if s == [] || !IsDigit(s[0]) then 0
    else
      var k := 1 + LeadingDigits(s[1..]);
      assert s[..k] == [s[0]] + s[1..][..k - 1];
      k
  }

  /** Reference definition of `ParseUint`, stated over the whole text: the
      leading digit run decides a range error, then any other character is a
      syntax error. */
  function UintSpec(s: string): UintResult {
    if s == [] then UintSyntax
    else
      var k := LeadingDigits(s);
      if DigitsValue(s[..k]) > MaxUint64 then UintRange
      else if k < |s| then UintSyntax
      else
        assert s[..k] == s;
        UintOk(DigitsValue(s))
  }

  /** The text after an optional leading sign. */
  function Unsigned(s: string): string {
    if s != [] && (s[0] == '+' || s[0] == '-') then s[1..] else s
  }

  /** An optional sign followed by at least one decimal digit. */
  predicate IsDecimal(s: string) {
    s != [] && Unsigned(s) != [] && AllDigits(Unsigned(s))
  }

  /** The signed number a decimal text denotes, of any magnitude. */
  function DecimalValue(s: string): int
    requires IsDecimal(s)
  {
    if s[0] == '-' then -(DigitsValue(Unsigned(s)) as int) else DigitsValue(Unsigned(s))
  }

  /** Atoi succeeds exactly on the decimal texts of int64 values, and then
      returns that value. Otherwise the value is 0 after a syntax error,
      which a decimal text never gives, and the int64 bound of the text's
      sign after a range error. Which error a rejected text gets is
      `AtoiErrorKind`. */
  function Atoi(s: string): (r: AtoiResult)
    ensures MinInt64 <= r.value <= MaxInt64
    ensures r.err == None <==> IsDecimal(s) && MinInt64 <= DecimalValue(s) <= MaxInt64
    ensures r.err == None ==> r.value == DecimalValue(s)
    ensures r.err == Some(ErrSyntax) ==> r.value == 0 && !IsDecimal(s)
    ensures r.err == Some(ErrRange) ==> s != [] && r.value == (if s[0] == '-' then MinInt64 else MaxInt64)
  {
    if s == [] then AtoiResult(0, Some(ErrSyntax))
    else
      var neg := s[0] == '-';
      ParseUintMeetsSpec(Unsigned(s));
      UintSpecOfDigits(Unsigned(s));
      match ParseUint(Unsigned(s))
      case UintSyntax => AtoiResult(0, Some(ErrSyntax))
      case UintRange => AtoiResult(if neg then MinInt64 else MaxInt64, Some(ErrRange))
      case UintOk(u) =>
        if !neg && u > MaxInt64 then AtoiResult(MaxInt64, Some(ErrRange))
        else if neg && u > -MinInt64 then AtoiResult(MinInt64, Some(ErrRange))
        else AtoiResult(if neg then -(u as int) else u, None)
  }

  /** The scanning loop, started anywhere inside the leading digit run with
      the value read so far, agrees with the reference definition. */
  lemma {:induction false} ScanMeetsSpec(s: string, i: nat, n: nat)
    requires s != [] && i <= LeadingDigits(s)
    requires n == DigitsValue(s[..i]) && n <= MaxUint64
    ensures Scan(s, i, n) == UintSpec(s)
    decreases |s| - i
  {
    var k := LeadingDigits(s);
    DigitsValuePrefix(s[..k], i);
    assert s[..k][..i] == s[..i];
    if i == |s| {
      assert s[..k] == s;
    } else if !IsDigit(s[i]) {
      assert i == k;
    } else {
      var n' := n * 10 + DigitValue(s[i]);
      assert s[..i + 1][..i] == s[..i];
      assert DigitsValue(s[..i + 1]) == n';
      DigitsValuePrefix(s[..k], i + 1);
      assert s[..k][..i + 1] == s[..i + 1];
      if n' <= MaxUint64 {
        ScanMeetsSpec(s, i + 1, n');
      }
    }
  }

  /** A text made only of digits is its own leading digit run. */
  lemma {:induction false} LeadingDigitsOfDigits(s: string)
    requires AllDigits(s)
    ensures LeadingDigits(s) == |s|
  {
    if s != [] {
      assert AllDigits(s[1..]) by {
        forall i | 0 <= i < |s[1..]|
          ensures IsDigit(s[1..][i])
        {
          assert s[1..][i] == s[i + 1];
        }
      }
      LeadingDigitsOfDigits(s[1..]);
    }
  }

  /** On a non-empty run of digits the reference definition is never a
      syntax error: it is the run's value, or a range error beyond 2^64-1. */
  lemma UintSpecOfDigits(s: string)
    ensures s != [] && AllDigits(s) ==>
              UintSpec(s) == (if DigitsValue(s) > MaxUint64 then UintRange else UintOk(DigitsValue(s)))
  {
    if s != [] && AllDigits(s) {
      LeadingDigitsOfDigits(s);
      assert s[..|s|] == s;
    }
  }

  /** Go's `ParseUint` behaves as the reference definition on every text. */
  lemma ParseUintMeetsSpec(s: string)
    ensures ParseUint(s) == UintSpec(s)
  {
    if s != [] {
      assert s[..0] == [];
      ScanMeetsSpec(s, 0, 0);
    }
  }

  /** A text made only of digits, of at most 2^64-1, parses to its value. */
  lemma ParseUintDigits(s: string)
    requires s != [] && AllDigits(s) && DigitsValue(s) <= MaxUint64
    ensures ParseUint(s) == UintOk(DigitsValue(s))
  {
    ParseUintMeetsSpec(s);
    UintSpecOfDigits(s);
  }

  /** Which error a rejected text gets: a syntax error exactly when the
      reference definition finds one in the text after the sign, that is,
      when a character other than a digit comes before the digits have
      overflowed. */
  lemma AtoiErrorKind(s: string)
    ensures Atoi(s).err == Some(ErrSyntax) <==> UintSpec(Unsigned(s)) == UintSyntax
  {
    ParseUintMeetsSpec(Unsigned(s));
  }

  /** A letter after the digits is a syntax error read as 0, not a number
      read up to the letter. */
  lemma AtoiTrailingLetter()
    ensures Atoi("12a") == AtoiResult(0, Some(ErrSyntax))
  {
    AtoiErrorKind("12a");
  }

  /** Reading back the decimal text of any int64 gives the same number and
      no error. */
  lemma AtoiRoundTrip(n: int)
    requires MinInt64 <= n <= MaxInt64
    ensures Atoi(IntText(n)) == AtoiResult(n, None)
  {
    var s := IntText(n);
    if n < 0 {
      assert Unsigned(s) == NatText(-n);
    } else {
      assert Unsigned(s) == s;
    }
    NatTextValue(if n < 0 then -n else n);
    ParseUintDigits(Unsigned(s));
  }

  /** Without any digit there is nothing to read: a syntax error and the
      value 0. */
  lemma AtoiNoDigits(s: string)
    requires Unsigned(s) == [] || !IsDigit(Unsigned(s)[0])
    ensures Atoi(s) == AtoiResult(0, Some(ErrSyntax))
  {
    var b := Unsigned(s);
    ParseUintMeetsSpec(b);
    if b != [] {
      assert LeadingDigits(b) == 0;
      assert b[..0] == [];
    }
  }
}

=== FILE: update.dfy ===
/** One run of `update`, from the CPU listing on: the samples and the
    power-supply attribute files it reads are inputs, and the result is the
    lines it prints, the errors it logs, and whether it ran to the end or
    panicked on a slice of a too-short attribute text. */
module Update {
  import opened Decimal
  import opened StrConv
  import opened GoNum
  import opened Battery
  import opened Cpu

  /** The power-supply attributes of BAT0 the update reads. */
  datatype Attribute = CycleCount | Status | EnergyNow | EnergyFull | EnergyFullDesign | PowerNow

  /** What a file read returned: its contents (empty when nothing could be
      read) and whether it reported an error. */
  datatype FileRead = FileRead(content: string, failed: bool)

  /** The inputs of one update: the CPU sampler's per-core percentages and
      the attribute files. */
  datatype RawSample = RawSample(
    cpuPercents: seq<real>,
    cycleCount: FileRead,
    status: FileRead,
    energyNow: FileRead,
    energyFull: FileRead,
    energyFullDesign: FileRead,
    powerNow: FileRead)

  datatype LogEntry = ReadFailed(attr: Attribute) | ParseFailed(attr: Attribute, err: NumError)

  /** The printed lines whose content the model determines. */
  datatype Line =
    | CpuHeader
    | CpuCore(tag: string, percent: real)
    | CycleCountLine(text: string)
    | LevelLine(level: F64)
    | TimeUntilCharged(clock: Clock)
    | TimeLeft(clock: Clock)
    | PowerLine(watts: real)
    | NotChargingLine

  /** A runtime panic ends the process; it names the attribute whose text
      was too short to cut. */
  datatype Outcome = Completed | Panicked(attr: Attribute)

  datatype Report = Report(lines: seq<Line>, log: seq<LogEntry>, outcome: Outcome)

  /** The three energy attributes read in turn, or the panic that stopped
      the reading, with what was logged up to then. */
  datatype Energies =
    | Energies(energy: int, capacity: int, design: int, log: seq<LogEntry>)
    | CutPanic(attr: Attribute, log: seq<LogEntry>)

  predicate IsEstimate(l: Line) {
    l.TimeUntilCharged? || l.TimeLeft? || l.PowerLine?
  }

  function ReadLog(attr: Attribute, f: FileRead): (r: seq<LogEntry>)
    ensures r == [] <==> !f.failed
  {
    if f.failed then [ReadFailed(attr)] else []
  }

  /** The value the update goes on with for an attribute it could cut:
      `strconv.Atoi` of the text without its two trailing characters, which
      is an int64 whether or not Atoi reported an error. */
  function AttrValue(f: FileRead): (v: int)
    requires |f.content| >= 2
    ensures MinInt64 <= v <= MaxInt64
  {
    Atoi(StripUnit(f.content)).value
  }

  /** What the update logs after cutting an attribute: the error of
      `strconv.Atoi`, if any; the value it returned is used all the same. */
  function ParseLog(attr: Attribute, f: FileRead): (r: seq<LogEntry>)
    requires |f.content| >= 2
    ensures r == [] || r == [ParseFailed(attr, ErrSyntax)] || r == [ParseFailed(attr, ErrRange)]
    ensures r == [ParseFailed(attr, ErrSyntax)] ==> AttrValue(f) == 0
    ensures r == [ParseFailed(attr, ErrRange)] ==> AttrValue(f) == MinInt64 || AttrValue(f) == MaxInt64
  {
    var a := Atoi(StripUnit(f.content));
    if a.err.Some? then [ParseFailed(attr, a.err.value)] else []
  }

  /** A parse logs nothing exactly when the cut text is the decimal text of
      an int64, and the value carried on with is then that number. */
  lemma CleanParse(attr: Attribute, f: FileRead)
    requires |f.content| >= 2
    ensures var t := StripUnit(f.content);
            ParseLog(attr, f) == [] <==> IsDecimal(t) && MinInt64 <= DecimalValue(t) <= MaxInt64
    ensures ParseLog(attr, f) == [] ==> AttrValue(f) == DecimalValue(StripUnit(f.content))
  {
  }

  /** The listing of the CPU sampler's percentages: one line per core, in
      order, each with its percentage and a label naming its index; no two
      cores share a label, and with at most a hundred cores every label has
      three characters. */
  function CpuLines(percents: seq<real>): (r: seq<Line>)
    ensures |r| == |percents|
    ensures forall k :: 0 <= k < |r| ==> r[k].CpuCore? && r[k].percent == percents[k]
    ensures forall k :: 0 <= k < |r| ==> |r[k].tag| >= 2 && r[k].tag[0] == 'C' && AllDigits(r[k].tag[1..]) && DigitsValue(r[k].tag[1..]) == k
    ensures forall a, b :: 0 <= a < b < |r| ==> r[a].tag != r[b].tag
    ensures |percents| <= 100 ==> forall k :: 0 <= k < |r| ==> |r[k].tag| == 3
  {
    CpuLabelsDistinct(|percents|);
    seq(|percents|, k requires 0 <= k < |percents| => CpuCore(CpuLabel(k), percents[k]))
  }

  /** The lines printed before any attribute is cut. */
  function Head(raw: RawSample): seq<Line> {
    [CpuHeader] + CpuLines(raw.cpuPercents) + [CycleCountLine(raw.cycleCount.content)]
  }

  /** All three energy attributes are long enough to be cut. */
  predicate Cuttable(raw: RawSample) {
    |raw.energyNow.content| >= 2 && |raw.energyFull.content| >= 2 && |raw.energyFullDesign.content| >= 2
  }

  /** The reads of cycle_count, status and the three energy attributes, in
      the order of the source. The read error of energy_full is never
      logged: its error value is overwritten by the parse that follows. */
  function ReadEnergies(raw: RawSample): (r: Energies)
    ensures r.Energies? <==> Cuttable(raw)
    ensures r.CutPanic? ==>
              r.attr == (if |raw.energyNow.content| < 2 then EnergyNow
                         else if |raw.energyFull.content| < 2 then EnergyFull
                         else EnergyFullDesign)
  {
    var log := ReadLog(CycleCount, raw.cycleCount) + ReadLog(Status, raw.status) + ReadLog(EnergyNow, raw.energyNow);
    if |raw.energyNow.content| < 2 then CutPanic(EnergyNow, log)
    else
      var log := log + ParseLog(EnergyNow, raw.energyNow);
      if |raw.energyFull.content| < 2 then CutPanic(EnergyFull, log)
      else
        var log := log + ParseLog(EnergyFull, raw.energyFull) + ReadLog(EnergyFullDesign, raw.energyFullDesign);
        if |raw.energyFullDesign.content| < 2 then CutPanic(EnergyFullDesign, log)
        else
          Energies(AttrValue(raw.energyNow), AttrValue(raw.energyFull), AttrValue(raw.energyFullDesign),
                   log + ParseLog(EnergyFullDesign, raw.energyFullDesign))
  }

  /** The part after the level line: dispatch on the exact status text.
      Every status other than "Not charging\n" reads and cuts power_now. */
  function BatteryTail(state: ChargeState, energy: int, design: int, power: FileRead): (r: Report)
    ensures state == NotCharging ==> r == Report([NotChargingLine], [], Completed)
    ensures r.outcome == Completed || r.outcome == Panicked(PowerNow)
    ensures state != NotCharging ==> (r.outcome == Panicked(PowerNow) <==> |power.content| < 2)
    ensures state == OtherState ==> r.lines == []
    ensures state == Charging && |power.content| >= 2 ==>
              r.lines == [TimeUntilCharged(ChargeClock(design, energy, AttrValue(power)))]
    ensures state == Discharging && |power.content| >= 2 ==>
              r.lines == [TimeLeft(DischargeClock(energy, AttrValue(power))),
                          PowerLine(Watts(AttrValue(power)))]
  {
    if state == NotCharging then Report([NotChargingLine], [], Completed)
    else
      var log := ReadLog(PowerNow, power);
      if |power.content| < 2 then Report([], log, Panicked(PowerNow))
      else
        var p := AttrValue(power);
        var log := log + ParseLog(PowerNow, power);
        if state == Charging then
          Report([TimeUntilCharged(ChargeClock(design, energy, p))], log, Completed)
        else if state == Discharging then
          Report([TimeLeft(DischargeClock(energy, p)), PowerLine(Watts(p))], log, Completed)
        else
          Report([], log, Completed)
  }

  /** The power in watts: the cut power_now, in tens of microwatts. */
  function Watts(power: int): real {
    power as real / 100000.0
  }

  /** One update. It runs to the end only if every energy attribute could
      be cut. */
  function Update(raw: RawSample): (r: Report)
    ensures r.outcome.Completed? ==> Cuttable(raw)
  {
    match ReadEnergies(raw)
    case CutPanic(attr, log) => Report(Head(raw), log, Panicked(attr))
    case Energies(energy, capacity, design, log) =>
      var tail := BatteryTail(Classify(raw.status.content), energy, design, raw.powerNow);
      Report(Head(raw) + [LevelLine(Level(energy, capacity))] + tail.lines, log + tail.log, tail.outcome)
  }

  /** The lines an update that got past the energy attributes prints before
      the status dispatch: the head and the level from energy now over the
      full capacity. */
  function LevelLines(raw: RawSample): seq<Line>
    requires Cuttable(raw)
  {
    Head(raw) + [LevelLine(Level(AttrValue(raw.energyNow), AttrValue(raw.energyFull)))]
  }

  function Tail(raw: RawSample): Report
    requires Cuttable(raw)
  {
    BatteryTail(Classify(raw.status.content), AttrValue(raw.energyNow), AttrValue(raw.energyFullDesign), raw.powerNow)
  }

  /** Whatever happens to the battery attributes, the CPU header, the
      per-core lines and the cycle count are printed first. */
  lemma HeadFirst(raw: RawSample)
    ensures |Update(raw).lines| >= |Head(raw)| && Update(raw).lines[..|Head(raw)|] == Head(raw)
  {
    if Cuttable(raw) {
      var tail := Tail(raw);
      assert Update(raw).lines == Head(raw) + ([LevelLine(Level(AttrValue(raw.energyNow), AttrValue(raw.energyFull)))] + tail.lines);
    }
  }

  /** An update that can cut the energy attributes prints the level, then
      whatever the status dispatch prints. */
  lemma UpdateShape(raw: RawSample)
    requires Cuttable(raw)
    ensures Update(raw) == Report(LevelLines(raw) + Tail(raw).lines, ReadEnergies(raw).log + Tail(raw).log, Tail(raw).outcome)
  {
  }

  /** Status "Not charging\n": only the "Not Charging" line follows the
      level, the update completes, and power_now is never read, so its
      contents make no difference. */
  lemma NotChargingDispatch(raw: RawSample, power: FileRead)
    requires Cuttable(raw) && Classify(raw.status.content) == NotCharging
    ensures Update(raw).lines == LevelLines(raw) + [NotChargingLine]
    ensures Update(raw).outcome == Completed
    ensures Update(raw) == Update(raw.(powerNow := power))
  {
    UpdateShape(raw);
  }

  /** Status "Charging\n": power_now is read and the time until charged,
      from the design capacity, follows the level; no power line. */
  lemma ChargingDispatch(raw: RawSample)
    requires Cuttable(raw) && Classify(raw.status.content) == Charging
    requires |raw.powerNow.content| >= 2
    ensures Update(raw).lines == LevelLines(raw)
              + [TimeUntilCharged(ChargeClock(AttrValue(raw.energyFullDesign), AttrValue(raw.energyNow), AttrValue(raw.powerNow)))]
    ensures Update(raw).outcome == Completed
  {
    UpdateShape(raw);
  }

  /** Status "Discharging\n": the time left and the power in watts (the cut
      power_now over 100000) follow the level. */
  lemma DischargingDispatch(raw: RawSample)
    requires Cuttable(raw) && Classify(raw.status.content) == Discharging
    requires |raw.powerNow.content| >= 2
    ensures Update(raw).lines == LevelLines(raw)
              + [TimeLeft(DischargeClock(AttrValue(raw.energyNow), AttrValue(raw.powerNow))),
                 PowerLine(Watts(AttrValue(raw.powerNow)))]
    ensures Update(raw).outcome == Completed
  {
    UpdateShape(raw);
  }

  /** Any other status: nothing follows the level, but power_now is still
      read, and cut, so a too-short power text panics. */
  lemma OtherStatusDispatch(raw: RawSample)
    requires Cuttable(raw) && Classify(raw.status.content) == OtherState
    ensures Update(raw).lines == LevelLines(raw)
    ensures Update(raw).outcome == (if |raw.powerNow.content| < 2 then Panicked(PowerNow) else Completed)
  {
    UpdateShape(raw);
  }

  /** The head and the level line are no estimates. */
  lemma HeadHasNoEstimate(raw: RawSample)
    ensures forall i :: 0 <= i < |Head(raw)| ==> !IsEstimate(Head(raw)[i])
    ensures Cuttable(raw) ==> forall i :: 0 <= i < |LevelLines(raw)| ==> !IsEstimate(LevelLines(raw)[i])
  {
  }

  /** Whatever the status, no estimate line appears unless the status is
      exactly "Charging\n" or "Discharging\n". */
  lemma EstimatesOnlyWhenCharging(raw: RawSample)
    requires Classify(raw.status.content) == NotCharging || Classify(raw.status.content) == OtherState
    ensures forall i :: 0 <= i < |Update(raw).lines| ==> !IsEstimate(Update(raw).lines[i])
  {
    HeadHasNoEstimate(raw);
    if Cuttable(raw) {
      if Classify(raw.status.content) == NotCharging {
        NotChargingDispatch(raw, raw.powerNow);
      } else {
        OtherStatusDispatch(raw);
      }
    } else {
      CutFailurePanics(raw);
    }
  }

  /** An energy attribute too short to cut panics before the level line:
      only the head is printed. */
  lemma CutFailurePanics(raw: RawSample)
    requires !Cuttable(raw)
    ensures Update(raw).lines == Head(raw)
    ensures Update(raw).outcome == Panicked(if |raw.energyNow.content| < 2 then EnergyNow
                                            else if |raw.energyFull.content| < 2 then EnergyFull
                                            else EnergyFullDesign)
  {
  }

  /** An energy_now text whose cut is no decimal number is logged as a
      syntax error and read as 0, and the update carries on to the level
      line and the status dispatch. */
  lemma ParseFailureCarriesOn(raw: RawSample)
    requires Cuttable(raw)
    requires Atoi(StripUnit(raw.energyNow.content)).err == Some(ErrSyntax)
    ensures ParseFailed(EnergyNow, ErrSyntax) in Update(raw).log
    ensures |Update(raw).lines| > |Head(raw)|
    ensures Update(raw).lines[|Head(raw)|] == LevelLine(Level(0, AttrValue(raw.energyFull)))
    ensures Update(raw).outcome == Tail(raw).outcome
  {
    ParseErrorsLogged(raw, ErrSyntax);
    UpdateShape(raw);
  }

  /** The attribute file of a number as the kernel writes it. */
  function SysfsText(n: nat): string {
    NatText(n) + "\n"
  }

  function SysfsFile(n: nat): FileRead {
    FileRead(SysfsText(n), false)
  }

  /** A kernel-written number of at least two digits is read, without any
      log entry, as the number divided by ten. */
  lemma SysfsReading(attr: Attribute, n: nat)
    requires 10 <= n && n / 10 <= MaxInt64
    ensures |SysfsFile(n).content| >= 2
    ensures AttrValue(SysfsFile(n)) == n / 10
    ensures ParseLog(attr, SysfsFile(n)) == []
  {
    StripSysfsNumber(n);
  }

  /** Attribute files holding numbers of at least two digits, all read
      without error: nothing is logged, the update completes, and every
      number is used divided by ten. */
  lemma WellFormedSample(cpu: seq<real>, cycles: FileRead, status: string, now: nat, full: nat, design: nat, power: nat)
    requires !cycles.failed
    requires 10 <= now && 10 <= full && 10 <= design && 10 <= power
    requires now / 10 <= MaxInt64 && full / 10 <= MaxInt64 && design / 10 <= MaxInt64 && power / 10 <= MaxInt64
    ensures var raw := RawSample(cpu, cycles, FileRead(status, false), SysfsFile(now), SysfsFile(full), SysfsFile(design), SysfsFile(power));
            && Update(raw).log == []
            && Update(raw).outcome == Completed
            && Update(raw).lines[|Head(raw)|] == LevelLine(Level(now / 10, full / 10))
  {
    var raw := RawSample(cpu, cycles, FileRead(status, false), SysfsFile(now), SysfsFile(full), SysfsFile(design), SysfsFile(power));
    SysfsReading(EnergyNow, now);
    SysfsReading(EnergyFull, full);
    SysfsReading(EnergyFullDesign, design);
    SysfsReading(PowerNow, power);
    UpdateShape(raw);
    assert ReadEnergies(raw).log == [];
    assert Tail(raw).log == [] && Tail(raw).outcome == Completed;
  }

  /** The read error of energy_full is never logged: the error value of that
      read is overwritten by the parse that follows. */
  lemma EnergyFullReadErrorNotLogged(raw: RawSample)
    ensures ReadFailed(EnergyFull) !in Update(raw).log
  {
    EnergyLogOmitsFullRead(raw);
    if Cuttable(raw) {
      UpdateShape(raw);
      TailLog(Classify(raw.status.content), AttrValue(raw.energyNow), AttrValue(raw.energyFullDesign), raw.powerNow);
    }
  }

  /** The reads logged before any energy attribute is cut. */
  function FirstReads(raw: RawSample): seq<LogEntry> {
    ReadLog(CycleCount, raw.cycleCount) + ReadLog(Status, raw.status) + ReadLog(EnergyNow, raw.energyNow)
  }

  /** The log of reading the energy attributes, in each of the four ways the
      reading can end: a panic on energy_now, on energy_full or on
      energy_full_design, or all three cut. */
  lemma EnergyLogCases(raw: RawSample)
    ensures |raw.energyNow.content| < 2 ==> ReadEnergies(raw).log == FirstReads(raw)
    ensures |raw.energyNow.content| >= 2 && |raw.energyFull.content| < 2 ==>
              ReadEnergies(raw).log == FirstReads(raw) + ParseLog(EnergyNow, raw.energyNow)
    ensures |raw.energyNow.content| >= 2 && |raw.energyFull.content| >= 2 && |raw.energyFullDesign.content| < 2 ==>
              ReadEnergies(raw).log == FirstReads(raw) + ParseLog(EnergyNow, raw.energyNow)
                                       + ParseLog(EnergyFull, raw.energyFull) + ReadLog(EnergyFullDesign, raw.energyFullDesign)
    ensures Cuttable(raw) ==>
              ReadEnergies(raw).log == FirstReads(raw) + ParseLog(EnergyNow, raw.energyNow)
                                       + ParseLog(EnergyFull, raw.energyFull) + ReadLog(EnergyFullDesign, raw.energyFullDesign)
                                       + ParseLog(EnergyFullDesign, raw.energyFullDesign)
  {
  }

  /** Reading the energy attributes logs the read errors of cycle_count,
      status and energy_now, and that of energy_full_design once the reading
      gets that far. */
  lemma EnergyReadErrorsLogged(raw: RawSample)
    ensures raw.cycleCount.failed ==> ReadFailed(CycleCount) in ReadEnergies(raw).log
    ensures raw.status.failed ==> ReadFailed(Status) in ReadEnergies(raw).log
    ensures raw.energyNow.failed ==> ReadFailed(EnergyNow) in ReadEnergies(raw).log
    ensures |raw.energyNow.content| >= 2 && |raw.energyFull.content| >= 2 && raw.energyFullDesign.failed ==>
              ReadFailed(EnergyFullDesign) in ReadEnergies(raw).log
  {
    EnergyLogCases(raw);
  }

  /** Reading the energy attributes never logs the read error of
      energy_full. */
  lemma EnergyLogOmitsFullRead(raw: RawSample)
    ensures ReadFailed(EnergyFull) !in ReadEnergies(raw).log
  {
    EnergyLogCases(raw);
    var x := ReadFailed(EnergyFull);
    assert x !in FirstReads(raw);
    if |raw.energyNow.content| >= 2 {
      assert x !in ParseLog(EnergyNow, raw.energyNow);
      if |raw.energyFull.content| >= 2 {
        assert x !in ParseLog(EnergyFull, raw.energyFull) && x !in ReadLog(EnergyFullDesign, raw.energyFullDesign);
        if |raw.energyFullDesign.content| >= 2 {
          assert x !in ParseLog(EnergyFullDesign, raw.energyFullDesign);
        }
      }
    }
  }

  /** The status dispatch logs only about power_now: its read error
      exactly when power_now is read and the read failed, and its parse
      error exactly when it is cut and `strconv.Atoi` fails on the cut. */
  lemma TailLog(state: ChargeState, energy: int, design: int, power: FileRead)
    ensures forall x :: x in BatteryTail(state, energy, design, power).log ==> x.attr == PowerNow
    ensures ReadFailed(PowerNow) in BatteryTail(state, energy, design, power).log <==> state != NotCharging && power.failed
  {
    var r := BatteryTail(state, energy, design, power);
    if state != NotCharging && |power.content| >= 2 {
      assert r.log == ReadLog(PowerNow, power) + ParseLog(PowerNow, power);
    }
  }

  lemma TailParseLog(state: ChargeState, energy: int, design: int, power: FileRead, e: NumError)
    ensures ParseFailed(PowerNow, e) in BatteryTail(state, energy, design, power).log <==>
              state != NotCharging && |power.content| >= 2 && Atoi(StripUnit(power.content)).err == Some(e)
  {
    var r := BatteryTail(state, energy, design, power);
    if state != NotCharging && |power.content| >= 2 {
      assert r.log == ReadLog(PowerNow, power) + ParseLog(PowerNow, power);
    }
  }

  /** The status dispatch prints a time estimate or the power exactly when
      the status is "Charging\n" or "Discharging\n" and power_now can be
      cut. */
  lemma TailEstimates(state: ChargeState, energy: int, design: int, power: FileRead)
    ensures (exists i :: 0 <= i < |BatteryTail(state, energy, design, power).lines| && IsEstimate(BatteryTail(state, energy, design, power).lines[i]))
              <==> (state == Charging || state == Discharging) && |power.content| >= 2
  {
    var r := BatteryTail(state, energy, design, power);
    if (state == Charging || state == Discharging) && |power.content| >= 2 {
      assert IsEstimate(r.lines[0]);
    }
  }

  /** Whatever reading the energy attributes logged stays in the update's
      log. */
  lemma ReadingsKept(raw: RawSample, x: LogEntry)
    requires x in ReadEnergies(raw).log
    ensures x in Update(raw).log
  {
    if Cuttable(raw) {
      UpdateShape(raw);
    }
  }

  /** Whatever the status dispatch logged stays in the update's log. */
  lemma TailKept(raw: RawSample, x: LogEntry)
    requires Cuttable(raw) && x in Tail(raw).log
    ensures x in Update(raw).log
  {
    UpdateShape(raw);
  }

  /** Reading the energy attributes logs no entry about power_now. */
  lemma EnergyLogOmitsPower(raw: RawSample, e: NumError)
    ensures ReadFailed(PowerNow) !in ReadEnergies(raw).log
    ensures ParseFailed(PowerNow, e) !in ReadEnergies(raw).log
  {
    EnergyLogCases(raw);
    var x, y := ReadFailed(PowerNow), ParseFailed(PowerNow, e);
    assert x !in FirstReads(raw) && y !in FirstReads(raw);
    if |raw.energyNow.content| >= 2 {
      assert x !in ParseLog(EnergyNow, raw.energyNow) && y !in ParseLog(EnergyNow, raw.energyNow);
      if |raw.energyFull.content| >= 2 {
        assert x !in ParseLog(EnergyFull, raw.energyFull) && y !in ParseLog(EnergyFull, raw.energyFull);
        assert x !in ReadLog(EnergyFullDesign, raw.energyFullDesign) && y !in ReadLog(EnergyFullDesign, raw.energyFullDesign);
        if |raw.energyFullDesign.content| >= 2 {
          assert x !in ParseLog(EnergyFullDesign, raw.energyFullDesign) && y !in ParseLog(EnergyFullDesign, raw.energyFullDesign);
        }
      }
    }
  }

  /** Reading the energy attributes logs the parse error of every attribute
      it cuts. */
  lemma EnergyParseErrorsLogged(raw: RawSample, e: NumError)
    ensures |raw.energyNow.content| >= 2 && Atoi(StripUnit(raw.energyNow.content)).err == Some(e) ==>
              ParseFailed(EnergyNow, e) in ReadEnergies(raw).log
    ensures |raw.energyNow.content| >= 2 && |raw.energyFull.content| >= 2 && Atoi(StripUnit(raw.energyFull.content)).err == Some(e) ==>
              ParseFailed(EnergyFull, e) in ReadEnergies(raw).log
    ensures Cuttable(raw) && Atoi(StripUnit(raw.energyFullDesign.content)).err == Some(e) ==>
              ParseFailed(EnergyFullDesign, e) in ReadEnergies(raw).log
  {
    EnergyLogCases(raw);
  }

  /** Every parse error of an attribute the update cuts is logged, and the
      update goes on with the value Atoi returned. */
  lemma ParseErrorsLogged(raw: RawSample, e: NumError)
    ensures |raw.energyNow.content| >= 2 && Atoi(StripUnit(raw.energyNow.content)).err == Some(e) ==>
              ParseFailed(EnergyNow, e) in Update(raw).log
    ensures |raw.energyNow.content| >= 2 && |raw.energyFull.content| >= 2 && Atoi(StripUnit(raw.energyFull.content)).err == Some(e) ==>
              ParseFailed(EnergyFull, e) in Update(raw).log
    ensures Cuttable(raw) && Atoi(StripUnit(raw.energyFullDesign.content)).err == Some(e) ==>
              ParseFailed(EnergyFullDesign, e) in Update(raw).log
    ensures ParseFailed(PowerNow, e) in Update(raw).log <==>
              Cuttable(raw) && Classify(raw.status.content) != NotCharging
              && |raw.powerNow.content| >= 2 && Atoi(StripUnit(raw.powerNow.content)).err == Some(e)
  {
    EnergyParseErrorsLogged(raw, e);
    EnergyLogOmitsPower(raw, e);
    forall x | x in ReadEnergies(raw).log
      ensures x in Update(raw).log
    {
      ReadingsKept(raw, x);
    }
    if Cuttable(raw) {
      UpdateShape(raw);
      TailParseLog(Classify(raw.status.content), AttrValue(raw.energyNow), AttrValue(raw.energyFullDesign), raw.powerNow, e);
      assert ParseFailed(PowerNow, e) !in ReadEnergies(raw).log;
    }
  }

  /** Every failed read the update makes is logged, except that of
      energy_full; power_now's read error is logged exactly when the status
      dispatch reads it. */
  lemma ReadErrorsLogged(raw: RawSample)
    ensures raw.cycleCount.failed ==> ReadFailed(CycleCount) in Update(raw).log
    ensures raw.status.failed ==> ReadFailed(Status) in Update(raw).log
    ensures raw.energyNow.failed ==> ReadFailed(EnergyNow) in Update(raw).log
    ensures |raw.energyNow.content| >= 2 && |raw.energyFull.content| >= 2 && raw.energyFullDesign.failed ==>
              ReadFailed(EnergyFullDesign) in Update(raw).log
    ensures ReadFailed(PowerNow) in Update(raw).log <==>
              Cuttable(raw) && Classify(raw.status.content) != NotCharging && raw.powerNow.failed
  {
    EnergyReadErrorsLogged(raw);
    EnergyLogOmitsPower(raw, ErrSyntax);
    forall x | x in ReadEnergies(raw).log
      ensures x in Update(raw).log
    {
      ReadingsKept(raw, x);
    }
    if Cuttable(raw) {
      UpdateShape(raw);
      TailLog(Classify(raw.status.content), AttrValue(raw.energyNow), AttrValue(raw.energyFullDesign), raw.powerNow);
      assert ReadFailed(PowerNow) !in ReadEnergies(raw).log;
    }
  }
}
